=== FILE: README.md ===
# BackgroundJobPerformer, modelled in Dafny

This project models how JobRunr's `BackgroundJobPerformer` runs one background
job on a worker thread. The performer:

- tells the job zoo-keeper that the thread is occupied;
- claims the job by moving it to PROCESSING and saving it through the
  state-related job filters (the state-applied hooks, state election, the
  save, and the applied hooks again if election changed the state);
- if the job is still PROCESSING, registers it on the thread, runs the
  processing hooks, looks up the runner, runs the job and the processed
  hooks, and deregisters it;
- saves it as SUCCEEDED;
- on any exception, classifies the failure (deleted while processing,
  server stopped, method not found, anything else) and records it;
- finally tells the zoo-keeper the thread is idle.

The run is a pure function, `Performer.Perform(job, script)`. Its input
`Collaborators.Script` is an outcome script: how each collaborator call ends
(returns, or throws an exception of a given kind), which states the election
hooks move the job through, and whether the job was deleted by another actor
while it ran. Its result `Performer.Outcome` holds:

- the final job (`Jobs.Job`), whose current state is always the last entry
  of an append-only history;
- the ordered trace of collaborator calls (`Traces.Event`);
- the states handed to the state-applied hooks and to storage, in order;
- the increase of the collision counter;
- the thread's interrupt flag;
- whether an exception escaped.

Java's exception flow is made explicit by `Performer.Step`: each operation
either ends normally or throws. Either way it carries the updated world and
the calls it made.

Modules:

- `jobs.dfy`: `Jobs`, holding states, exceptions and the job with its history.
- `collaborators.dfy`: `Collaborators`, holding call outcomes and the script.
- `traces.dfy`: `Traces`, holding call events and trace shapes.
- `performer.dfy`: `Performer`, the operations of `BackgroundJobPerformer.java`.
- `properties.dfy`: `PerformerProperties`, the properties of whole runs. These
  are stated against `CaughtFailure`, an independent description of which
  failure reaches the catch block, and `FirstThrow`, which names the first
  call that throws.

A generic failure is recorded with the fixed message "An exception
occurred during the performance of the job", with the exception as its
cause (`core/src/main/java/org/jobrunr/server/BackgroundJobPerformer.java:51`).

## Model

| member | source | states |
|---|---|---|
| `Jobs.Job.Elect` | core/src/main/java/org/jobrunr/server/BackgroundJobPerformer.java:119 | State election appends the elected states to the history in order, keeps the job's identity, and leaves the last elected state current (no change when nothing is elected) |
| `Performer.SaveWithFilters` | core/src/main/java/org/jobrunr/server/BackgroundJobPerformer.java:116-125 | Applied hooks for the current state, then election, then exactly one save of the elected state; the applied hooks run again, for the elected state, exactly when the save returned and election changed the state's name; a failing save is rethrown unchanged |
| `Performer.Claim` | core/src/main/java/org/jobrunr/server/BackgroundJobPerformer.java:58-69 | The job may run exactly when the PROCESSING save returned and the job is still PROCESSING after election; a concurrent-modification conflict is absorbed and adds exactly one to the collision counter; any other save failure is rethrown. The applied hooks ran for PROCESSING, and again for the elected state exactly when the save returned and election renamed the state, with one applied-hooks call per logged state |
| `Performer.Execute` | core/src/main/java/org/jobrunr/server/BackgroundJobPerformer.java:76-79 | Execution ends normally exactly when the processing hooks, the runner lookup, the runner and the processed hooks all return; the processing hooks are always called first, the runner is invoked exactly when the hooks and the lookup returned, and the processed hooks are called exactly when the runner returned, in that order; no state hook, save or occupancy call is made |
| `Performer.RunActualJob` | core/src/main/java/org/jobrunr/server/BackgroundJobPerformer.java:71-84 | The job is registered on the thread first and deregistered last, exactly once each, whether execution ends normally or throws; it throws exactly when execution throws, and rethrows the same exception. The calls between register and deregister are exactly execution's calls, so nothing is added after a throwing call |
| `Performer.UpdateToSucceeded` | core/src/main/java/org/jobrunr/server/BackgroundJobPerformer.java:86-94 | The job becomes SUCCEEDED, then is elected and saved through the two-phase save; a failing save is swallowed, the step always ends normally, and the interrupt flag and collision counter are untouched. The applied hooks run for SUCCEEDED, and for the elected state when the save returned and election renamed the state |
| `Performer.UpdateToFailed` | core/src/main/java/org/jobrunr/server/BackgroundJobPerformer.java:96-104 | The job becomes FAILED with the given message and cause and is saved directly: one save, no state hooks and no election; a failing save is swallowed |
| `Performer.UpdateToFailedWithFilters` | core/src/main/java/org/jobrunr/server/BackgroundJobPerformer.java:106-114 | The job becomes FAILED with the given message and cause, then is elected and saved through the two-phase save; a failing save is swallowed. The applied hooks run for the FAILED state, and for the elected state when the save returned and election renamed the state |
| `Performer.Classify` | core/src/main/java/org/jobrunr/server/BackgroundJobPerformer.java:127-137 | The four classifications are exclusive and are tried in a fixed order: an interruption in the cause chain of a DELETED job; an interruption for any other job; a top-level job-not-found exception; anything else |
| `Performer.Catch` | core/src/main/java/org/jobrunr/server/BackgroundJobPerformer.java:41-52 | The catch block never throws. Deleted while processing: no call at all. Server stopped: FAILED with the stopped message through the filters, with the applied hooks as in the filtered save, and the interrupt flag is set. Method not found: FAILED with the not-found message, saved directly. Otherwise: FAILED with the generic message through the filters |
| `Performer.Attempt` | core/src/main/java/org/jobrunr/server/BackgroundJobPerformer.java:36-40 | The try block after the busy notification (the claim, then the run and the SUCCEEDED save when the claim allows it) keeps the job's identity, leaves the interrupt flag alone, and makes no busy or idle notification of its own |
| `Performer.Handle` | core/src/main/java/org/jobrunr/server/BackgroundJobPerformer.java:41-53 | A try block that ended normally passes through with no further call and an unchanged world; in every case the result is normal, the handling calls are none, one direct save or one two-phase save, and the job's identity and the collision counter are untouched |
| `PerformerProperties.PerformCatches` | core/src/main/java/org/jobrunr/server/BackgroundJobPerformer.java:41 | Once the try block has thrown, the exception handling of the run is the catch block for that exception, with the claimed job, only the claim saved, and the applied hooks run for PROCESSING only |
| `Performer.Perform` | core/src/main/java/org/jobrunr/server/BackgroundJobPerformer.java:33-56 | A run never lets an exception escape and keeps the job's identity |
| `PerformerProperties.OccupiedFirstIdleLast` | core/src/main/java/org/jobrunr/server/BackgroundJobPerformer.java:33-56 | On every path the occupied notification is the first event and the idle notification the last, and each occurs exactly once |
| `PerformerProperties.CollisionAbortsSilently` | core/src/main/java/org/jobrunr/server/BackgroundJobPerformer.java:58-69 | A conflicting claim save counts one collision. The job stays as claimed and only the claim is saved. The whole trace is busy, applied hooks, election, save, idle: no applied hooks after the rejected save and no execution call. The applied hooks ran for PROCESSING only. Nothing escapes and the thread is not interrupted |
| `PerformerProperties.CollisionCounter` | core/src/main/java/org/jobrunr/server/BackgroundJobPerformer.java:64-67 | A run raises the collision counter by one exactly when the claim save is rejected as a concurrent modification, and leaves it alone otherwise |
| `PerformerProperties.ElectedAwayStopsQuietly` | core/src/main/java/org/jobrunr/server/BackgroundJobPerformer.java:36-38 | A claim whose election moves the job away from PROCESSING ends the run: no execution call, one save of the elected state, and applied hooks for PROCESSING and for the elected state |
| `PerformerProperties.RunOnlyAfterProcessingClaim` | core/src/main/java/org/jobrunr/server/BackgroundJobPerformer.java:36-38 | The runner is invoked exactly when the claim save returned, the job is PROCESSING after election, and the processing hooks and the runner lookup returned |
| `PerformerProperties.ProcessedHooksOnlyAfterRunner` | core/src/main/java/org/jobrunr/server/BackgroundJobPerformer.java:76-79 | Over a whole run, the processed hooks are called exactly when the job may run and the processing hooks, the runner lookup and the runner all returned; a throwing runner skips them |
| `PerformerProperties.ExecuteThrowsFirstFailure` | core/src/main/java/org/jobrunr/server/BackgroundJobPerformer.java:76-79 | Execution ends normally exactly when no execution call throws, and otherwise throws the exception of the first call that throws |
| `PerformerProperties.ExecutionWindowPaired` | core/src/main/java/org/jobrunr/server/BackgroundJobPerformer.java:71-84 | In a whole run the job is registered and deregistered exactly once each when it may run, however execution ends, and never when it may not |
| `PerformerProperties.AttemptThrowsCaughtFailure` | core/src/main/java/org/jobrunr/server/BackgroundJobPerformer.java:34-41 | The try block throws exactly when the claim save fails other than by a conflict, or when a job that may run has an execution call that throws. It throws that exception, with the claimed job and only the claim saved |
| `PerformerProperties.SucceededAfterCleanRun` | core/src/main/java/org/jobrunr/server/BackgroundJobPerformer.java:86-94 | A job that runs without an exception is saved SUCCEEDED, as elected, after its PROCESSING save. Nothing else is saved, whether storage accepts that save or not, so a failing SUCCEEDED save never leads to a FAILED write. The applied hooks run for PROCESSING, then for SUCCEEDED, and again for the elected state exactly when the SUCCEEDED save returned and election renamed the state |
| `PerformerProperties.FailureDeletedWhileProcessing` | core/src/main/java/org/jobrunr/server/BackgroundJobPerformer.java:42-44 | An interruption reaching the catch block while the job is DELETED saves nothing beyond the claim and runs no further hook: the trace holds one save, one election and one round of applied hooks, those of the claim, and the applied hooks ran for PROCESSING only. The interrupt flag is not set and nothing escapes |
| `PerformerProperties.FailureServerStopped` | core/src/main/java/org/jobrunr/server/BackgroundJobPerformer.java:45-47 | An interruption reaching the catch block while the job is not DELETED saves it FAILED with "Job processing was stopped as background job server has stopped" through the filters, and sets the interrupt flag. The applied hooks run for PROCESSING, for the FAILED state, and for the elected state when the save returned and election renamed the state; the trace holds two saves and two elections |
| `PerformerProperties.FailureMethodNotFound` | core/src/main/java/org/jobrunr/server/BackgroundJobPerformer.java:48-49 | A job-not-found exception without an interruption saves the job FAILED with "Job Method not found", directly: the trace holds two saves but only the claim's election and applied hooks, and the applied hooks ran for PROCESSING only |
| `PerformerProperties.FailureGeneric` | core/src/main/java/org/jobrunr/server/BackgroundJobPerformer.java:50-51 | Any other exception saves the job FAILED with "An exception occurred during the performance of the job" through the filters, with the applied hooks and the counts of saves and elections as for the server-stopped case; the interrupt flag stays clear |
| `PerformerProperties.InterruptOnlyWhenServerStopped` | core/src/main/java/org/jobrunr/server/BackgroundJobPerformer.java:45-47 | A run ends with the interrupt flag set exactly when an interruption reached the catch block and the job was not DELETED |
| `PerformerProperties.HistoryOnlyGrows` | core/src/main/java/org/jobrunr/server/BackgroundJobPerformer.java:60 | On every path the final job keeps its identity, and its history extends the original history followed by PROCESSING |
| `PerformerProperties.CleanRunOfEnqueuedJob` | core/src/main/java/org/jobrunr/server/BackgroundJobPerformer.java:33-40 | An enqueued job whose calls all return ends SUCCEEDED with the history ENQUEUED, PROCESSING, SUCCEEDED, after exactly the expected sequence of thirteen calls |
| `PerformerProperties.FailureRescheduledByElection` | core/src/main/java/org/jobrunr/server/BackgroundJobPerformer.java:106-125 | For every run whose failure is saved through the filters (server stopped or generic) and whose FAILED state election moves to SCHEDULED with a save that returns: the job ends SCHEDULED, its history records FAILED then SCHEDULED, storage receives SCHEDULED, and the applied hooks run for PROCESSING, FAILED and SCHEDULED |
| `PerformerProperties.LogsMatchTrace` | core/src/main/java/org/jobrunr/server/BackgroundJobPerformer.java:116-125 | On every path the trace holds one save call per state in the saved log and one applied-hooks call per state in the applied log, so the logs list the states of those calls in order |

## Left out

- `core/src/main/java/org/jobrunr/storage/JobStats.java` is left out. It is a plain record of counts with a wall-clock timestamp, and has no logic.
- Logging and the dashboard logger's thread-local job are left out; they are side effects only.
- Thread safety of the process-wide counter is left out. The model reports the counter's increase in one run as a plain number.
- Real thread interruption is modelled as a boolean flag.
- Storage's optimistic-concurrency check and job versions are left out. A save is only an outcome: it returns, raises a conflict, or raises another exception.
- The filter implementations, the runner lookup and the job body are not modelled. They appear only as the outcome of each call. Election is modelled as the list of states it moves the job through.
- The cause-chain walk of `hasCause` is not modelled. An exception carries a flag saying whether an interruption is anywhere in its cause chain.
- The internals of `Job` are not part of this model. `startProcessingOn`, `succeeded`, `failed` and election each set the current state and append it to the history.
- The state-applied and state-election hooks and the zoo-keeper calls are modelled as never throwing. The script only lets the saves, the processing and processed hooks, the runner lookup and the runner throw.
- Deletion of the job by another actor is modelled as a script flag. The performer's copy becomes DELETED at the moment a failure is classified. The model does not say at what point during execution the deletion happened. On a path that reaches no catch block (a clean run or a claim collision) the flag is ignored, so a deletion that lands before `job.succeeded()` and leaves DELETED ahead of SUCCEEDED in the history is not modelled.
- The busy notification is made outside the try block in the model, before the claim, because the zoo-keeper calls are modelled as never throwing; in the code it is the first statement inside the try.
- Java `Error`s, meaning throwables that are not `Exception`s, are left out. Such an error bypasses the catch block and would escape.

=== FILE: collaborators.dfy ===
/** The outcomes of the calls a job run makes on code outside the performer:
    storage saves, filter hooks, the runner lookup and the job runner. */
module Collaborators {
  import opened Jobs

  /** How one collaborator call ends. */
  datatype Call = Returns | Throws(e: Exception)

  /** A save rejected by storage's optimistic-concurrency check. */
  predicate IsConflict(c: Call) {
    c.Throws? && c.e.kind == ConcurrentJobModification
  }

  /** The outcome of every collaborator call of one run.

      `claimElection` and `finishElection` are the states the state-election
      hooks move the job through during the PROCESSING save and during the
      SUCCEEDED or FAILED save. `deletedExternally` says that another actor
      deleted the job while it ran, so that the performer's copy of the job
      is DELETED by the time a failure is classified. */
  datatype Script = Script(
    claimElection: seq<JobState>,
    claimSave: Call,
    processingHooks: Call,
    runnerLookup: Call,
    runner: Call,
    processedHooks: Call,
    deletedExternally: bool,
    finishElection: seq<JobState>,
    finishSave: Call)
}

=== FILE: jobs.dfy ===
/** Jobs, their lifecycle states, and the exceptions a job run can raise.

    A job is modelled by its identity, its earlier states and its current
    state, so that "the current state is the last element of the history"
    holds by construction and every state change is an append. */
module Jobs {

  /** The names of the lifecycle states; state comparisons in the performer
      are comparisons of these names. */
  datatype StateName = Awaiting | Scheduled | Enqueued | Processing | Failed | Succeeded | Deleted

  /** The exception classes the performer distinguishes. */
  datatype ExceptionKind =
    | ConcurrentJobModification  // storage rejected a save of a stale job version
    | JobNotFound                // the job's method could not be resolved
    | OtherException

  /** An exception: its own class, and whether an interruption appears
      anywhere in its cause chain (the exception itself included). */
  datatype Exception = Exception(kind: ExceptionKind, interruptedInCauseChain: bool)

  datatype JobState =
    | AwaitingState
    | ScheduledState
    | EnqueuedState
    | ProcessingState
    | FailedState(message: string, cause: Exception)
    | SucceededState
    | DeletedState
  {
    function Name(): StateName {
      match this
      case AwaitingState => Awaiting
      case ScheduledState => Scheduled
      case EnqueuedState => Enqueued
      case ProcessingState => Processing
      case FailedState(_, _) => Failed
      case SucceededState => Succeeded
      case DeletedState => Deleted
    }
  }

  datatype Job = Job(id: nat, previous: seq<JobState>, state: JobState) {

    /** The append-only history; its last element is the current state. */
    function History(): (h: seq<JobState>)
      ensures |h| == |previous| + 1
      ensures h[|h| - 1] == state
    {
      previous + [state]
    }

    predicate HasState(name: StateName) {
      state.Name() == name
    }

    /** A state transition (startProcessingOn, succeeded, failed, or a state
        set by a hook): the new state becomes current and is appended to the
        history; the identity is kept. */
    function Transition(s: JobState): (j: Job)
      ensures j.id == id
      ensures j.state == s
      ensures j.History() == History() + [s]
    {
      Job(id, History(), s)
    }

    /** The effect of state-election hooks that move the job through the
        given states, in order. */
    function Elect(states: seq<JobState>): (j: Job)
      ensures j.id == id
      ensures j.History() == History() + states
      ensures states == [] ==> j == this
      ensures states != [] ==> j.state == states[|states| - 1]
      decreases |states|
    {
      if states == [] then this
      else
        assert states == [states[0]] + states[1..];
        Transition(states[0]).Elect(states[1..])
    }
  }

  /** `later` is `earlier` with zero or more states appended to its history. */
  predicate Extends(later: Job, earlier: Job) {
    && later.id == earlier.id
    && |earlier.History()| <= |later.History()|
    && later.History()[..|earlier.History()|] == earlier.History()
  }

  lemma ExtendsTransitive(a: Job, b: Job, c: Job)
    requires Extends(b, a) && Extends(c, b)
    ensures Extends(c, a)
  {
    assert c.History()[..|a.History()|] == c.History()[..|b.History()|][..|a.History()|];
  }

  lemma TransitionExtends(j: Job, s: JobState)
    ensures Extends(j.Transition(s), j)
  {
    assert j.Transition(s).History()[..|j.History()|] == j.History();
  }

  lemma ElectExtends(j: Job, states: seq<JobState>)
    ensures Extends(j.Elect(states), j)
  {
    assert j.Elect(states).History()[..|j.History()|] == j.History();
  }
}

=== FILE: performer.dfy ===
/** The orchestration of one background job run by a worker thread: claim the
    job by saving it as PROCESSING, run it between occupancy notifications and
    the processing hooks, save it as SUCCEEDED, or classify the failure and
    save it as FAILED.

    Java's exceptional control flow is made explicit by `Step`: every
    operation that may throw returns either its normal result or the
    exception, together with its effects on the `World` and the collaborator
    calls it made, in order. */
module Performer {
  import opened Jobs
  import opened Traces
  import opened Collaborators

  const StoppedMessage := "Job processing was stopped as background job server has stopped"
  const NotFoundMessage := "Job Method not found"
  const GenericMessage := "An exception occurred during the performance of the job"

  /** The effects of a run so far: the performer's copy of the job, the
      states the state-applied hooks were run for, the states handed to
      storage, the increase of the process-wide collision counter, and the
      current thread's interrupt flag. */
  datatype World = World(
    job: Job,
    applied: seq<JobState>,
    saved: seq<JobState>,
    collisions: nat,
    interrupted: bool)
  {
    /** Runs the state-applied hooks for the current state. */
    function ApplyHooks(): World {
      this.(applied := applied + [job.state])
    }

    /** Hands the job in its current state to storage. */
    function SaveJob(): World {
      this.(saved := saved + [job.state])
    }
  }

  datatype Step<T> =
    | Normal(w: World, value: T, calls: seq<Event>)
    | Thrown(w: World, e: Exception, calls: seq<Event>)

  /** The result of a whole run. `escaped` says whether an exception left it. */
  datatype Outcome = Outcome(
    job: Job,
    trace: seq<Event>,
    applied: seq<JobState>,
    saved: seq<JobState>,
    collisions: nat,
    interrupted: bool,
    escaped: bool)

  /** The four failure classifications, in the order they are tried. */
  datatype Failure = DeletedWhileProcessing | ServerStopped | MethodNotFound | GenericFailure

  /** The two-phase save shared by the claim, success and failure paths:
      state-applied hooks, state election, one save, and the applied hooks
      again, for the elected state, when election changed the state's name. */
  function SaveWithFilters(w: World, election: seq<JobState>, save: Call): (r: Step<()>)
    ensures r.w.job == w.job.Elect(election)
    ensures r.w.collisions == w.collisions && r.w.interrupted == w.interrupted
    ensures r.Thrown? <==> save.Throws?
    ensures r.Thrown? ==> r.e == save.e
    ensures r.w.saved == w.saved + [r.w.job.state]
    ensures r.Normal? && w.job.state.Name() != r.w.job.state.Name() ==>
              r.calls == [AppliedHooks, ElectionHooks, Save, AppliedHooks]
              && r.w.applied == w.applied + [w.job.state, r.w.job.state]
    ensures !(r.Normal? && w.job.state.Name() != r.w.job.state.Name()) ==>
              r.calls == [AppliedHooks, ElectionHooks, Save]
              && r.w.applied == w.applied + [w.job.state]
  {
    var w1 := w.ApplyHooks();
    var before := w1.job.state.Name();
    var w2 := w1.(job := w1.job.Elect(election));
    var after := w2.job.state.Name();
    var w3 := w2.SaveJob();
    match save
    case Throws(e) => Thrown(w3, e, [AppliedHooks, ElectionHooks, Save])
    case Returns =>
      if before != after then Normal(w3.ApplyHooks(), (), [AppliedHooks, ElectionHooks, Save, AppliedHooks])
      else Normal(w3, (), [AppliedHooks, ElectionHooks, Save])
  }

  /** The states the state-applied hooks run for in a two-phase save of a
      job in `state` that election moved to `elected`: `state` itself, and
      `elected` after a save that returned when election renamed the state. */
  function AppliedFor(state: JobState, elected: JobState, save: Call): seq<JobState> {
    if save.Returns? && state.Name() != elected.Name() then [state, elected] else [state]
  }

  /** Moves the job to PROCESSING and saves it; the value says whether the
      job may run. A concurrent-modification conflict is absorbed: it counts
      a collision and the job does not run. */
  function Claim(w: World, s: Script): (r: Step<bool>)
    ensures r.Normal? && r.value <==> s.claimSave.Returns? && r.w.job.HasState(Processing)
    ensures r.Thrown? <==> s.claimSave.Throws? && !IsConflict(s.claimSave)
    ensures r.Thrown? ==> r.e == s.claimSave.e
    ensures r.w.collisions == w.collisions + (if IsConflict(s.claimSave) then 1 else 0)
    ensures r.w.interrupted == w.interrupted
    ensures r.w.job == w.job.Transition(ProcessingState).Elect(s.claimElection)
    ensures r.w.saved == w.saved + [r.w.job.state]
    ensures TwoPhaseSaveCalls(r.calls)
    ensures r.w.applied == w.applied + AppliedFor(ProcessingState, r.w.job.state, s.claimSave)
    ensures |r.calls| == |r.w.applied| - |w.applied| + 2
  {
    var w1 := w.(job := w.job.Transition(ProcessingState));
    match SaveWithFilters(w1, s.claimElection, s.claimSave)
    case Normal(w2, _, calls) => Normal(w2, w2.job.HasState(Processing), calls)
    case Thrown(w2, e, calls) =>
      if e.kind == ConcurrentJobModification then Normal(w2.(collisions := w2.collisions + 1), false, calls)
      else Thrown(w2, e, calls)
  }

  /** The body of a run: the processing hooks, the runner lookup, the runner
      and the processed hooks; the first of them to throw ends it. */
  function Execute(w: World, s: Script): (r: Step<()>)
    ensures r.w == w
    ensures r.Normal? <==> s.processingHooks.Returns? && s.runnerLookup.Returns?
                           && s.runner.Returns? && s.processedHooks.Returns?
    ensures Run in r.calls <==> s.processingHooks.Returns? && s.runnerLookup.Returns?
    // the processing hooks always come first and the processed hooks run
    // only after a runner that returned
    ensures r.calls <= [ProcessingHooks, Run, ProcessedHooks] && ProcessingHooks in r.calls
    ensures ProcessedHooks in r.calls <==>
              s.processingHooks.Returns? && s.runnerLookup.Returns? && s.runner.Returns?
    ensures NoThreadCalls(r.calls) && NoStateCalls(r.calls)
    ensures StartProcessing !in r.calls && StopProcessing !in r.calls
  {
    if s.processingHooks.Throws? then Thrown(w, s.processingHooks.e, [ProcessingHooks])
    else if s.runnerLookup.Throws? then Thrown(w, s.runnerLookup.e, [ProcessingHooks])
    else if s.runner.Throws? then Thrown(w, s.runner.e, [ProcessingHooks, Run])
    else if s.processedHooks.Throws? then Thrown(w, s.processedHooks.e, [ProcessingHooks, Run, ProcessedHooks])
    else Normal(w, (), [ProcessingHooks, Run, ProcessedHooks])
  }

  /** Registers the job on this thread, executes it, and deregisters it on
      every exit, normal or exceptional. */
  function RunActualJob(w: World, s: Script): (r: Step<()>)
    ensures r.w == w
    ensures r.Normal? <==> Execute(w, s).Normal?
    ensures r.Thrown? ==> r.e == Execute(w, s).e
    ensures r.calls == [StartProcessing] + Execute(w, s).calls + [StopProcessing]
    ensures OnceAtStart(r.calls, StartProcessing) && OnceAtEnd(r.calls, StopProcessing)
    ensures Run in r.calls <==> s.processingHooks.Returns? && s.runnerLookup.Returns?
    ensures NoThreadCalls(r.calls) && NoStateCalls(r.calls)
  {
    match Execute(w, s)
    case Normal(w1, _, calls) => Normal(w1, (), [StartProcessing] + calls + [StopProcessing])
    case Thrown(w1, e, calls) => Thrown(w1, e, [StartProcessing] + calls + [StopProcessing])
  }

  /** Moves the job to SUCCEEDED and saves it with filters; a failing save is
      swallowed. */
  function UpdateToSucceeded(w: World, s: Script): (r: Step<()>)
    ensures r.Normal?
    ensures r.w.job == w.job.Transition(SucceededState).Elect(s.finishElection)
    ensures r.w.saved == w.saved + [r.w.job.state]
    ensures r.w.applied == w.applied + AppliedFor(SucceededState, r.w.job.state, s.finishSave)
    ensures |r.calls| == |r.w.applied| - |w.applied| + 2
    ensures r.w.collisions == w.collisions && r.w.interrupted == w.interrupted
    ensures TwoPhaseSaveCalls(r.calls)
  {
    match SaveWithFilters(w.(job := w.job.Transition(SucceededState)), s.finishElection, s.finishSave)
    case Normal(w1, _, calls) => Normal(w1, (), calls)
    case Thrown(w1, _, calls) => Normal(w1, (), calls)
  }

  /** Moves the job to FAILED and saves it directly, without state hooks; a
      failing save is swallowed. */
  function UpdateToFailed(w: World, message: string, cause: Exception): (r: Step<()>)
    ensures r.Normal?
    ensures r.w.job == w.job.Transition(FailedState(message, cause))
    ensures r.w.saved == w.saved + [FailedState(message, cause)] && r.w.applied == w.applied
    ensures r.w.collisions == w.collisions && r.w.interrupted == w.interrupted
    ensures r.calls == [Save]
  {
    // a failing save is caught and only logged, so both outcomes end here
    Normal(w.(job := w.job.Transition(FailedState(message, cause))).SaveJob(), (), [Save])
  }

  /** Moves the job to FAILED and saves it with filters; a failing save is
      swallowed. */
  function UpdateToFailedWithFilters(w: World, message: string, cause: Exception, s: Script): (r: Step<()>)
    ensures r.Normal?
    ensures r.w.job == w.job.Transition(FailedState(message, cause)).Elect(s.finishElection)
    ensures r.w.saved == w.saved + [r.w.job.state]
    ensures r.w.applied == w.applied + AppliedFor(FailedState(message, cause), r.w.job.state, s.finishSave)
    ensures |r.calls| == |r.w.applied| - |w.applied| + 2
    ensures r.w.collisions == w.collisions && r.w.interrupted == w.interrupted
    ensures TwoPhaseSaveCalls(r.calls)
  {
    match SaveWithFilters(w.(job := w.job.Transition(FailedState(message, cause))), s.finishElection, s.finishSave)
    case Normal(w1, _, calls) => Normal(w1, (), calls)
    case Thrown(w1, _, calls) => Normal(w1, (), calls)
  }

  predicate IsJobDeletedWhileProcessing(job: Job, e: Exception) {
    e.interruptedInCauseChain && job.HasState(Deleted)
  }

  predicate IsJobServerStopped(job: Job, e: Exception) {
    e.interruptedInCauseChain && !job.HasState(Deleted)
  }

  predicate IsMethodNotFound(e: Exception) {
    e.kind == JobNotFound
  }

  /** The classification of a caught exception: the first of the three tests
      that holds, or a generic failure. */
  function Classify(job: Job, e: Exception): (f: Failure)
    ensures f == DeletedWhileProcessing <==> e.interruptedInCauseChain && job.state.Name() == Deleted
    ensures f == ServerStopped <==> e.interruptedInCauseChain && job.state.Name() != Deleted
    ensures f == MethodNotFound <==> !e.interruptedInCauseChain && e.kind == JobNotFound
    ensures f == GenericFailure <==> !e.interruptedInCauseChain && e.kind != JobNotFound
  {
    if IsJobDeletedWhileProcessing(job, e) then DeletedWhileProcessing
    else if IsJobServerStopped(job, e) then ServerStopped
    else if IsMethodNotFound(e) then MethodNotFound
    else GenericFailure
  }

  /** The performer's copy of the job when a failure is classified. */
  function JobAtCatch(job: Job, s: Script): (j: Job)
    ensures s.deletedExternally ==> j.HasState(Deleted) && j.History() == job.History() + [DeletedState]
    ensures !s.deletedExternally ==> j == job
  {
    if s.deletedExternally then job.Transition(DeletedState) else job
  }

  /** The catch block of a run: react to the classified failure. */
  function Catch(w: World, e: Exception, s: Script): (r: Step<()>)
    ensures r.Normal?
    ensures r.w.job.id == w.job.id && r.w.collisions == w.collisions
    ensures FailureHandlingCalls(r.calls)
    ensures Classify(JobAtCatch(w.job, s), e) == DeletedWhileProcessing ==>
              r.calls == [] && r.w == w.(job := JobAtCatch(w.job, s))
    ensures Classify(JobAtCatch(w.job, s), e) == ServerStopped ==>
              && TwoPhaseSaveCalls(r.calls) && r.w.interrupted
              && r.w.job == JobAtCatch(w.job, s).Transition(FailedState(StoppedMessage, e)).Elect(s.finishElection)
              && r.w.saved == w.saved + [r.w.job.state]
              && r.w.applied == w.applied + AppliedFor(FailedState(StoppedMessage, e), r.w.job.state, s.finishSave)
    ensures Classify(JobAtCatch(w.job, s), e) == MethodNotFound ==>
              && r.calls == [Save] && r.w.interrupted == w.interrupted && r.w.applied == w.applied
              && r.w.job == JobAtCatch(w.job, s).Transition(FailedState(NotFoundMessage, e))
              && r.w.saved == w.saved + [FailedState(NotFoundMessage, e)]
    ensures Classify(JobAtCatch(w.job, s), e) == GenericFailure ==>
              && TwoPhaseSaveCalls(r.calls) && r.w.interrupted == w.interrupted
              && r.w.job == JobAtCatch(w.job, s).Transition(FailedState(GenericMessage, e)).Elect(s.finishElection)
              && r.w.saved == w.saved + [r.w.job.state]
              && r.w.applied == w.applied + AppliedFor(FailedState(GenericMessage, e), r.w.job.state, s.finishSave)
  {
    var w1 := w.(job := JobAtCatch(w.job, s));
    match Classify(w1.job, e)
    case DeletedWhileProcessing => Normal(w1, (), [])
    case ServerStopped =>
      var r := UpdateToFailedWithFilters(w1, StoppedMessage, e, s);
      Normal(r.w.(interrupted := true), (), r.calls)
    case MethodNotFound => UpdateToFailed(w1, NotFoundMessage, e)
    case GenericFailure => UpdateToFailedWithFilters(w1, GenericMessage, e, s)
  }

  /** The try block of a run: claim, then run and save as SUCCEEDED. */
  function Attempt(w: World, s: Script): (r: Step<()>)
    ensures r.w.job.id == w.job.id
    ensures r.w.interrupted == w.interrupted
    ensures NoThreadCalls(r.calls)
  {
    match Claim(w, s)
    case Thrown(w1, e, c1) => Thrown(w1, e, c1)
    case Normal(w1, canProcess, c1) =>
      if !canProcess then Normal(w1, (), c1)
      else
        match RunActualJob(w1, s)
        case Thrown(w2, e, c2) => JoinNoThreadCalls(c1, c2, []); Thrown(w2, e, c1 + c2)
        case Normal(w2, _, c2) =>
          var r3 := UpdateToSucceeded(w2, s);
          JoinNoThreadCalls(c1, c2, r3.calls);
          Normal(r3.w, (), c1 + c2 + r3.calls)
  }

  /** The world a run starts from: the job as handed to the performer. */
  function Initial(job: Job): World {
    World(job, [], [], 0, false)
  }

  /** The exception handling of a run: a normal end passes through, an
      exception goes to the catch block. */
  function Handle(attempt: Step<()>, s: Script): (r: Step<()>)
    ensures r.Normal?
    ensures attempt.Normal? ==> r.calls == [] && r.w == attempt.w
    ensures r.w.job.id == attempt.w.job.id && r.w.collisions == attempt.w.collisions
    ensures FailureHandlingCalls(r.calls)
  {
    match attempt
    case Normal(w, _, _) => Normal(w, (), [])
    case Thrown(w, e, _) => Catch(w, e, s)
  }

  /** One whole run: the thread reports itself busy, tries, catches, and
      finally reports itself idle. */
  function Perform(job: Job, s: Script): (r: Outcome)
    ensures r.job.id == job.id
    ensures !r.escaped
  {
    var attempt := Attempt(Initial(job), s);
    var handled := Handle(attempt, s);
    var w := handled.w;
    Outcome(w.job, [Occupied] + (attempt.calls + handled.calls) + [Idle],
            w.applied, w.saved, w.collisions, w.interrupted, handled.Thrown?)
  }
}

=== FILE: properties.dfy ===
/** Properties of whole runs of the performer. */
module PerformerProperties {
  import opened Jobs
  import opened Traces
  import opened Collaborators
  import opened Performer

  /** The job after the PROCESSING transition and the claim's state election. */
  function Claimed(job: Job, s: Script): Job {
    job.Transition(ProcessingState).Elect(s.claimElection)
  }

  /** The claim ended normally with the job still PROCESSING, so it runs. */
  predicate CanProcess(job: Job, s: Script) {
    s.claimSave.Returns? && Claimed(job, s).HasState(Processing)
  }

  datatype Option<T> = None | Some(value: T)

  /** The exception that reaches the catch block, and the performer's copy
      of the job at that moment (before any external deletion is seen). */
  datatype Caught = Caught(job: Job, e: Exception)

  /** The exception of the first call in `calls` that throws, if any. */
  function FirstThrow(calls: seq<Call>): (r: Option<Exception>)
    ensures r.None? <==> forall i :: 0 <= i < |calls| ==> calls[i].Returns?
    ensures r.Some? ==> exists i :: 0 <= i < |calls| && calls[i] == Throws(r.value)
                                    && forall k :: 0 <= k < i ==> calls[k].Returns?
  {
    if calls == [] then None
    else if calls[0].Throws? then Some(calls[0].e)
    else
      var r := FirstThrow(calls[1..]);
      assert forall i :: 1 <= i < |calls| ==> calls[i] == calls[1..][i - 1];
      r
  }

  lemma FirstThrowCons(calls: seq<Call>)
    requires calls != []
    ensures FirstThrow(calls) == if calls[0].Throws? then Some(calls[0].e) else FirstThrow(calls[1..])
  {
  }

  /** The calls of the execution window, in the order they are made. */
  function ExecutionCalls(s: Script): seq<Call> {
    [s.processingHooks, s.runnerLookup, s.runner, s.processedHooks]
  }

  /** Which failure, if any, a run hands to its catch block, stated from the
      script alone: a claim save that fails other than by a conflict, or,
      for a job that may run, the first execution call that throws. */
  function CaughtFailure(job: Job, s: Script): Option<Caught> {
    if s.claimSave.Throws? then
      if IsConflict(s.claimSave) then None else Some(Caught(Claimed(job, s), s.claimSave.e))
    else if !Claimed(job, s).HasState(Processing) then None
    else match FirstThrow(ExecutionCalls(s))
      case None => None
      case Some(e) => Some(Caught(Claimed(job, s), e))
  }

  /** The thread reports itself busy first and idle last, once each, on
      every path. */
  lemma OccupiedFirstIdleLast(job: Job, s: Script)
    ensures var r := Perform(job, s);
      && OnceAtStart(r.trace, Occupied) && OnceAtEnd(r.trace, Idle)
      && Count(r.trace, Occupied) == 1 && Count(r.trace, Idle) == 1
  {
    var attempt := Attempt(Initial(job), s);
    var handled := Handle(attempt, s);
    FailureHandlingCallsAreStateCalls(handled.calls);
    assert Perform(job, s).trace == [Occupied] + (attempt.calls + handled.calls) + [Idle];
    BetweenThreadCalls(attempt.calls + handled.calls);
  }

  /** A claim rejected by storage as a concurrent modification counts one
      collision and ends the run quietly: one save, no execution, nothing
      escapes, and the thread is not interrupted. */
  lemma CollisionAbortsSilently(job: Job, s: Script)
    requires IsConflict(s.claimSave)
    ensures var r := Perform(job, s);
      && r.collisions == 1 && !r.escaped && !r.interrupted
      && r.job == Claimed(job, s) && r.saved == [Claimed(job, s).state]
      && r.trace == [Occupied, AppliedHooks, ElectionHooks, Save, Idle]
      && r.applied == [ProcessingState]
      && NoExecutionCalls(r.trace)
  {
    var c := Claim(Initial(job), s);
    assert c.Normal? && !c.value;
    assert Attempt(Initial(job), s) == Normal(c.w, (), c.calls);
  }

  /** Execution ends with the exception of the first of its calls that
      throws, and normally when none does. */
  lemma ExecuteThrowsFirstFailure(w: World, s: Script)
    ensures Execute(w, s).Normal? <==> FirstThrow(ExecutionCalls(s)).None?
    ensures Execute(w, s).Thrown? ==> Execute(w, s).e == FirstThrow(ExecutionCalls(s)).value
  {
    var calls := ExecutionCalls(s);
    FirstThrowCons(calls);
    FirstThrowCons(calls[1..]);
    FirstThrowCons(calls[1..][1..]);
    FirstThrowCons(calls[1..][1..][1..]);
    assert calls[1..][1..][1..][1..] == [];
  }

  /** The try block throws exactly when the script says a failure reaches
      the catch block; it then throws that failure, with the claimed job,
      one PROCESSING save behind it, no collision and no interrupt. */
  lemma AttemptThrowsCaughtFailure(job: Job, s: Script)
    ensures var a := Attempt(Initial(job), s);
      && (a.Thrown? <==> CaughtFailure(job, s).Some?)
      && (a.Thrown? ==> && a.w.job == CaughtFailure(job, s).value.job
                        && a.e == CaughtFailure(job, s).value.e
                        && a.w.saved == [Claimed(job, s).state]
                        && a.w.collisions == 0 && !a.w.interrupted)
  {
    var c := Claim(Initial(job), s);
    if c.Normal? && c.value {
      ExecuteThrowsFirstFailure(c.w, s);
    }
  }

  /** The failure that reaches the catch block, and the job as classified. */
  function CaughtException(job: Job, s: Script): Exception
    requires CaughtFailure(job, s).Some?
  {
    CaughtFailure(job, s).value.e
  }

  function JobAtClassification(job: Job, s: Script): Job
    requires CaughtFailure(job, s).Some?
  {
    JobAtCatch(CaughtFailure(job, s).value.job, s)
  }

  /** The whole run, once the try block has thrown, is its catch block. */
  lemma PerformCatches(job: Job, s: Script)
    requires CaughtFailure(job, s).Some?
    ensures var a := Attempt(Initial(job), s);
      && a.Thrown? && a.w.applied == [ProcessingState]
      && a.w.saved == [Claimed(job, s).state] && a.w.collisions == 0 && !a.w.interrupted
      && a.w.job == CaughtFailure(job, s).value.job && a.e == CaughtException(job, s)
      && Handle(a, s) == Catch(a.w, a.e, s)
  {
    AttemptThrowsCaughtFailure(job, s);
  }

  /** On a path that reaches the catch block, the try block made the calls
      of exactly one two-phase save, in which the applied hooks ran once. */
  lemma CaughtAttemptCounts(job: Job, s: Script)
    requires CaughtFailure(job, s).Some?
    ensures var a := Attempt(Initial(job), s);
      && Count(a.calls, AppliedHooks) == 1 && Count(a.calls, ElectionHooks) == 1
      && Count(a.calls, Save) == 1
  {
    PerformCatches(job, s);
    var w := Initial(job);
    ThrownAttemptCounts(w, s, AppliedHooks);
    ThrownAttemptCounts(w, s, ElectionHooks);
    ThrownAttemptCounts(w, s, Save);
    var c := Claim(w, s);
    assert c.w.applied == [ProcessingState];
    TwoPhaseSaveCounts(c.calls);
  }

  /** A try block that throws made no state call beyond its claim's. */
  lemma ThrownAttemptCounts(w: World, s: Script, e: Event)
    requires Attempt(w, s).Thrown? && (e == AppliedHooks || e == ElectionHooks || e == Save)
    ensures Attempt(w, s).w == Claim(w, s).w
    ensures Count(Attempt(w, s).calls, e) == Count(Claim(w, s).calls, e)
  {
    var c := Claim(w, s);
    if c.Normal? {
      var x := RunActualJob(c.w, s);
      assert Attempt(w, s).calls == c.calls + x.calls;
      NoStateCallsCount(x.calls, e);
      CountJoin(c.calls, x.calls, e);
    }
  }

  /** Counting a state call in a run that reached the catch block: the one
      of the try block plus those of the catch block. */
  lemma CaughtTraceCount(job: Job, s: Script, e: Event)
    requires CaughtFailure(job, s).Some?
    requires e == AppliedHooks || e == ElectionHooks || e == Save
    ensures var a := Attempt(Initial(job), s);
      Count(Perform(job, s).trace, e) == 1 + Count(Catch(a.w, a.e, s).calls, e)
  {
    PerformCatches(job, s);
    CaughtAttemptCounts(job, s);
    var a := Attempt(Initial(job), s);
    var h := Handle(a, s);
    assert Perform(job, s).trace == [Occupied] + (a.calls + h.calls) + [Idle];
    CountBetweenThreadCalls(a.calls + h.calls, e);
    CountJoin(a.calls, h.calls, e);
  }

  /** A failure handled without the filters runs no state hook and no
      election beyond those of the claim, and saves at most once more. */
  lemma UnfilteredFailureCounts(job: Job, s: Script)
    requires CaughtFailure(job, s).Some?
    requires CaughtClass(job, s) == DeletedWhileProcessing || CaughtClass(job, s) == MethodNotFound
    ensures var r := Perform(job, s);
      && Count(r.trace, AppliedHooks) == 1 && Count(r.trace, ElectionHooks) == 1
      && Count(r.trace, Save) == if CaughtClass(job, s) == MethodNotFound then 2 else 1
  {
    UnfilteredCatchCalls(job, s, AppliedHooks);
    UnfilteredCatchCalls(job, s, ElectionHooks);
    UnfilteredCatchCalls(job, s, Save);
  }

  lemma UnfilteredCatchCalls(job: Job, s: Script, e: Event)
    requires CaughtFailure(job, s).Some?
    requires CaughtClass(job, s) == DeletedWhileProcessing || CaughtClass(job, s) == MethodNotFound
    requires e == AppliedHooks || e == ElectionHooks || e == Save
    ensures Count(Perform(job, s).trace, e)
              == if CaughtClass(job, s) == MethodNotFound && e == Save then 2 else 1
  {
    PerformCatches(job, s);
    var a := Attempt(Initial(job), s);
    var h := Catch(a.w, a.e, s);
    assert h.calls == if CaughtClass(job, s) == MethodNotFound then [Save] else [];
    assert Count(h.calls, e) == if CaughtClass(job, s) == MethodNotFound && e == Save then 1 else 0;
    CaughtTraceCount(job, s, e);
  }

  /** An interruption of a job deleted meanwhile: nothing more is saved, no
      hook runs, the interrupt is not restored, nothing escapes. */
  lemma FailureDeletedWhileProcessing(job: Job, s: Script)
    requires CaughtFailure(job, s).Some?
    requires CaughtException(job, s).interruptedInCauseChain
    requires JobAtClassification(job, s).HasState(Deleted)
    ensures var r := Perform(job, s);
      && !r.escaped && r.collisions == 0 && !r.interrupted
      && r.job == JobAtClassification(job, s)
      && r.saved == [Claimed(job, s).state] && r.applied == [ProcessingState]
      && Count(r.trace, Save) == 1 && Count(r.trace, ElectionHooks) == 1
      && Count(r.trace, AppliedHooks) == 1
  {
    PerformCatches(job, s);
    var a := Attempt(Initial(job), s);
    var h := Catch(a.w, a.e, s);
    assert CaughtClass(job, s) == DeletedWhileProcessing;
    assert Perform(job, s) == Outcome(h.w.job, [Occupied] + (a.calls + h.calls) + [Idle],
                                      h.w.applied, h.w.saved, h.w.collisions, h.w.interrupted, false);
    UnfilteredFailureCounts(job, s);
  }

  /** The classification of the failure that reaches the catch block. */
  function CaughtClass(job: Job, s: Script): Failure
    requires CaughtFailure(job, s).Some?
  {
    Classify(JobAtClassification(job, s), CaughtException(job, s))
  }

  /** The message a failure saved through the filters is recorded with. */
  function FilteredMessage(job: Job, s: Script): string
    requires CaughtFailure(job, s).Some?
  {
    if CaughtClass(job, s) == ServerStopped then StoppedMessage else GenericMessage
  }

  /** A failure saved FAILED through the filters: the job, the states saved
      and the states the applied hooks ran for. */
  lemma FilteredFailureLogs(job: Job, s: Script)
    requires CaughtFailure(job, s).Some?
    requires CaughtClass(job, s) == ServerStopped || CaughtClass(job, s) == GenericFailure
    ensures var r := Perform(job, s);
      var failed := FailedState(FilteredMessage(job, s), CaughtException(job, s));
      && r.job == JobAtClassification(job, s).Transition(failed).Elect(s.finishElection)
      && r.saved == [Claimed(job, s).state, r.job.state]
      && r.applied == [ProcessingState] + AppliedFor(failed, r.job.state, s.finishSave)
  {
    PerformCatches(job, s);
    var a := Attempt(Initial(job), s);
    var h := Catch(a.w, a.e, s);
    assert Perform(job, s) == Outcome(h.w.job, [Occupied] + (a.calls + h.calls) + [Idle],
                                      h.w.applied, h.w.saved, h.w.collisions, h.w.interrupted, false);
  }

  /** A failure saved FAILED through the filters makes one more election and
      one more save than the claim. */
  lemma FilteredFailureCounts(job: Job, s: Script)
    requires CaughtFailure(job, s).Some?
    requires CaughtClass(job, s) == ServerStopped || CaughtClass(job, s) == GenericFailure
    ensures var r := Perform(job, s);
      Count(r.trace, Save) == 2 && Count(r.trace, ElectionHooks) == 2
  {
    PerformCatches(job, s);
    var a := Attempt(Initial(job), s);
    TwoPhaseSaveCounts(Catch(a.w, a.e, s).calls);
    CaughtTraceCount(job, s, Save);
    CaughtTraceCount(job, s, ElectionHooks);
  }

  /** Any other interruption means the server stopped: the job is saved
      FAILED with the server-stopped message through the filters, and the
      thread's interrupt flag is restored. */
  lemma FailureServerStopped(job: Job, s: Script)
    requires CaughtFailure(job, s).Some?
    requires CaughtException(job, s).interruptedInCauseChain
    requires !JobAtClassification(job, s).HasState(Deleted)
    ensures var r := Perform(job, s);
      && !r.escaped && r.collisions == 0 && r.interrupted
      && r.job == JobAtClassification(job, s)
                    .Transition(FailedState(StoppedMessage, CaughtException(job, s)))
                    .Elect(s.finishElection)
      && r.saved == [Claimed(job, s).state, r.job.state]
      && r.applied == [ProcessingState]
                      + AppliedFor(FailedState(StoppedMessage, CaughtException(job, s)), r.job.state, s.finishSave)
      && Count(r.trace, Save) == 2 && Count(r.trace, ElectionHooks) == 2
  {
    assert CaughtClass(job, s) == ServerStopped;
    PerformCatches(job, s);
    FilteredFailureLogs(job, s);
    FilteredFailureCounts(job, s);
  }

  /** An unresolvable job method: the job is saved FAILED with the
      not-found message directly, without state hooks or election. */
  lemma FailureMethodNotFound(job: Job, s: Script)
    requires CaughtFailure(job, s).Some?
    requires !CaughtException(job, s).interruptedInCauseChain
    requires CaughtException(job, s).kind == JobNotFound
    ensures var r := Perform(job, s);
      && !r.escaped && r.collisions == 0 && !r.interrupted
      && r.job == JobAtClassification(job, s).Transition(FailedState(NotFoundMessage, CaughtException(job, s)))
      && r.saved == [Claimed(job, s).state, FailedState(NotFoundMessage, CaughtException(job, s))]
      && r.applied == [ProcessingState]
      && Count(r.trace, Save) == 2 && Count(r.trace, ElectionHooks) == 1
      && Count(r.trace, AppliedHooks) == 1
  {
    PerformCatches(job, s);
    var a := Attempt(Initial(job), s);
    var h := Catch(a.w, a.e, s);
    assert CaughtClass(job, s) == MethodNotFound;
    assert Perform(job, s) == Outcome(h.w.job, [Occupied] + (a.calls + h.calls) + [Idle],
                                      h.w.applied, h.w.saved, h.w.collisions, h.w.interrupted, false);
    UnfilteredFailureCounts(job, s);
  }

  /** Any other failure: the job is saved FAILED with the generic message
      through the filters; the interrupt flag is left alone. */
  lemma FailureGeneric(job: Job, s: Script)
    requires CaughtFailure(job, s).Some?
    requires !CaughtException(job, s).interruptedInCauseChain
    requires CaughtException(job, s).kind != JobNotFound
    ensures var r := Perform(job, s);
      && !r.escaped && r.collisions == 0 && !r.interrupted
      && r.job == JobAtClassification(job, s)
                    .Transition(FailedState(GenericMessage, CaughtException(job, s)))
                    .Elect(s.finishElection)
      && r.saved == [Claimed(job, s).state, r.job.state]
      && r.applied == [ProcessingState]
                      + AppliedFor(FailedState(GenericMessage, CaughtException(job, s)), r.job.state, s.finishSave)
      && Count(r.trace, Save) == 2 && Count(r.trace, ElectionHooks) == 2
  {
    assert CaughtClass(job, s) == GenericFailure;
    PerformCatches(job, s);
    FilteredFailureLogs(job, s);
    FilteredFailureCounts(job, s);
  }

  /** The run ends with the thread's interrupt flag set exactly when an
      interruption reached the catch block of a job that was not deleted. */
  lemma InterruptOnlyWhenServerStopped(job: Job, s: Script)
    ensures Perform(job, s).interrupted <==>
      && CaughtFailure(job, s).Some?
      && CaughtFailure(job, s).value.e.interruptedInCauseChain
      && !JobAtCatch(CaughtFailure(job, s).value.job, s).HasState(Deleted)
  {
    AttemptThrowsCaughtFailure(job, s);
    if CaughtFailure(job, s).Some? {
      var e := CaughtException(job, s);
      if e.interruptedInCauseChain && JobAtClassification(job, s).HasState(Deleted) {
        FailureDeletedWhileProcessing(job, s);
      } else if e.interruptedInCauseChain {
        FailureServerStopped(job, s);
      } else if e.kind == JobNotFound {
        FailureMethodNotFound(job, s);
      } else {
        FailureGeneric(job, s);
      }
    }
  }

  /** A job whose claim elected it away from PROCESSING (to DELETED,
      SCHEDULED, ...) is not run: it is saved once, in the elected state,
      and the state-applied hooks run again for that state. */
  lemma ElectedAwayStopsQuietly(job: Job, s: Script)
    requires s.claimSave.Returns? && !Claimed(job, s).HasState(Processing)
    ensures var r := Perform(job, s);
      && r.job == Claimed(job, s) && r.saved == [Claimed(job, s).state]
      && r.applied == [ProcessingState, Claimed(job, s).state]
      && NoExecutionCalls(r.trace) && r.collisions == 0 && !r.interrupted
  {
    var c := Claim(Initial(job), s);
    assert c.w.job == Claimed(job, s) && c.Normal? && !c.value;
    assert Attempt(Initial(job), s) == Normal(c.w, (), c.calls);
    assert Perform(job, s) == Outcome(c.w.job, [Occupied] + (c.calls + []) + [Idle],
                                      c.w.applied, c.w.saved, c.w.collisions, c.w.interrupted, false);
    FailureHandlingCallsAreStateCalls(c.calls);
    BetweenNoExecutionCalls(c.calls, []);
  }

  /** A job that runs to completion is saved SUCCEEDED through the filters
      after its PROCESSING save, and nothing else is saved, whether or not
      storage accepts that save: a failing SUCCEEDED save is swallowed and
      never turns into a FAILED one. */
  lemma SucceededAfterCleanRun(job: Job, s: Script)
    requires CanProcess(job, s) && FirstThrow(ExecutionCalls(s)).None?
    ensures var r := Perform(job, s);
      var done := Claimed(job, s).Transition(SucceededState).Elect(s.finishElection);
      && r.job == done && r.saved == [Claimed(job, s).state, done.state]
      && r.applied == [ProcessingState] + AppliedFor(SucceededState, done.state, s.finishSave)
      && r.collisions == 0 && !r.interrupted && Run in r.trace
  {
    var c := Claim(Initial(job), s);
    ExecuteThrowsFirstFailure(c.w, s);
    var x := RunActualJob(c.w, s);
    var u := UpdateToSucceeded(x.w, s);
    assert Attempt(Initial(job), s) == Normal(u.w, (), c.calls + x.calls + u.calls);
    assert Perform(job, s) == Outcome(u.w.job, [Occupied] + (c.calls + x.calls + u.calls + []) + [Idle],
                                      u.w.applied, u.w.saved, u.w.collisions, u.w.interrupted, false);
  }

  /** The collision counter goes up by one exactly when the claim save is
      rejected as a concurrent modification. */
  lemma CollisionCounter(job: Job, s: Script)
    ensures Perform(job, s).collisions == if IsConflict(s.claimSave) then 1 else 0
  {
    if IsConflict(s.claimSave) {
      CollisionAbortsSilently(job, s);
    } else if CaughtFailure(job, s).Some? {
      PerformCatches(job, s);
    } else if !CanProcess(job, s) {
      ElectedAwayStopsQuietly(job, s);
    } else {
      SucceededAfterCleanRun(job, s);
    }
  }

  /** How the calls of a whole run are put together from its steps. */
  lemma PerformCalls(job: Job, s: Script)
    ensures var c := Claim(Initial(job), s);
      var a := Attempt(Initial(job), s);
      var x := RunActualJob(c.w, s);
      && Perform(job, s).trace == [Occupied] + (a.calls + Handle(a, s).calls) + [Idle]
      && FailureHandlingCalls(Handle(a, s).calls)
      && (!CanProcess(job, s) ==> a.calls == c.calls)
      && (CanProcess(job, s) && x.Thrown? ==> a.calls == c.calls + x.calls)
      && (CanProcess(job, s) && x.Normal? ==> a.calls == c.calls + x.calls + UpdateToSucceeded(x.w, s).calls)
  {
  }

  /** The job runner is invoked exactly when the claim left the job
      PROCESSING and the processing hooks and the runner lookup returned. */
  lemma RunOnlyAfterProcessingClaim(job: Job, s: Script)
    ensures Run in Perform(job, s).trace <==>
      CanProcess(job, s) && s.processingHooks.Returns? && s.runnerLookup.Returns?
  {
    PerformCalls(job, s);
    var a := Attempt(Initial(job), s);
    FailureHandlingCallsAreStateCalls(Handle(a, s).calls);
  }

  /** The processed hooks run exactly when the job runs and its runner
      returned: a throwing runner skips them. */
  lemma ProcessedHooksOnlyAfterRunner(job: Job, s: Script)
    ensures ProcessedHooks in Perform(job, s).trace <==>
      CanProcess(job, s) && s.processingHooks.Returns? && s.runnerLookup.Returns? && s.runner.Returns?
  {
    var a := Attempt(Initial(job), s);
    var h := Handle(a, s);
    FailureHandlingCallsAreStateCalls(h.calls);
    AttemptProcessedHooks(Initial(job), s);
    assert Perform(job, s).trace == [Occupied] + (a.calls + h.calls) + [Idle];
  }

  lemma AttemptProcessedHooks(w: World, s: Script)
    ensures ProcessedHooks in Attempt(w, s).calls <==>
      && Claim(w, s).Normal? && Claim(w, s).value
      && s.processingHooks.Returns? && s.runnerLookup.Returns? && s.runner.Returns?
  {
    var c := Claim(w, s);
    if c.Normal? && c.value {
      var x := RunActualJob(c.w, s);
      if x.Normal? {
        var u := UpdateToSucceeded(x.w, s);
        assert Attempt(w, s).calls == c.calls + x.calls + u.calls;
      } else {
        assert Attempt(w, s).calls == c.calls + x.calls;
      }
    }
  }

  lemma WindowWhenNotRunning(job: Job, s: Script)
    requires !CanProcess(job, s)
    ensures NoExecutionCalls(Perform(job, s).trace)
  {
    PerformCalls(job, s);
    var c := Claim(Initial(job), s);
    var a := Attempt(Initial(job), s);
    var h := Handle(a, s);
    FailureHandlingCallsAreStateCalls(h.calls);
    FailureHandlingCallsAreStateCalls(c.calls);
    assert a.calls == c.calls;
    BetweenNoExecutionCalls(a.calls, h.calls);
  }

  lemma WindowWhenRunning(job: Job, s: Script)
    requires CanProcess(job, s)
    ensures var t := Perform(job, s).trace;
      Count(t, StartProcessing) == 1 && Count(t, StopProcessing) == 1
  {
    PerformCalls(job, s);
    var c := Claim(Initial(job), s);
    var a := Attempt(Initial(job), s);
    var h := Handle(a, s);
    var x := RunActualJob(c.w, s);
    var u := if x.Normal? then UpdateToSucceeded(x.w, s).calls else [];
    FailureHandlingCallsAreStateCalls(h.calls);
    FailureHandlingCallsAreStateCalls(c.calls);
    FailureHandlingCallsAreStateCalls(u);
    assert a.calls == c.calls + x.calls + u;
    WindowCounts(c.calls, x.calls, u, h.calls);
  }

  /** The job is registered on the thread and deregistered again exactly
      once each when it runs, whether it then fails or not, and never
      otherwise. */
  lemma ExecutionWindowPaired(job: Job, s: Script)
    ensures var t := Perform(job, s).trace;
      && Count(t, StartProcessing) == (if CanProcess(job, s) then 1 else 0)
      && Count(t, StopProcessing) == Count(t, StartProcessing)
  {
    if CanProcess(job, s) {
      WindowWhenRunning(job, s);
    } else {
      WindowWhenNotRunning(job, s);
    }
  }

  lemma AttemptExtendsClaimed(job: Job, s: Script)
    ensures Extends(Attempt(Initial(job), s).w.job, Claimed(job, s))
  {
    var c := Claim(Initial(job), s);
    assert Extends(c.w.job, c.w.job);
    if c.Normal? && c.value {
      var x := RunActualJob(c.w, s);
      if x.Normal? {
        TransitionExtends(c.w.job, SucceededState);
        ElectExtends(c.w.job.Transition(SucceededState), s.finishElection);
        ExtendsTransitive(c.w.job, c.w.job.Transition(SucceededState), UpdateToSucceeded(x.w, s).w.job);
      }
    }
  }

  lemma CatchExtends(w: World, e: Exception, s: Script)
    ensures Extends(Catch(w, e, s).w.job, w.job)
  {
    var j := JobAtCatch(w.job, s);
    var r := Catch(w, e, s);
    TransitionExtends(w.job, DeletedState);
    assert Extends(j, w.job);
    match Classify(j, e)
    case DeletedWhileProcessing =>
    case MethodNotFound =>
      TransitionExtends(j, FailedState(NotFoundMessage, e));
      ExtendsTransitive(w.job, j, r.w.job);
    case ServerStopped =>
      TransitionExtends(j, FailedState(StoppedMessage, e));
      ElectExtends(j.Transition(FailedState(StoppedMessage, e)), s.finishElection);
      ExtendsTransitive(j, j.Transition(FailedState(StoppedMessage, e)), r.w.job);
      ExtendsTransitive(w.job, j, r.w.job);
    case GenericFailure =>
      TransitionExtends(j, FailedState(GenericMessage, e));
      ElectExtends(j.Transition(FailedState(GenericMessage, e)), s.finishElection);
      ExtendsTransitive(j, j.Transition(FailedState(GenericMessage, e)), r.w.job);
      ExtendsTransitive(w.job, j, r.w.job);
  }

  /** Every path only appends to the job's history, beginning with the
      PROCESSING state, and keeps its identity. */
  lemma HistoryOnlyGrows(job: Job, s: Script)
    ensures Extends(Perform(job, s).job, job.Transition(ProcessingState))
  {
    var p := job.Transition(ProcessingState);
    var a := Attempt(Initial(job), s);
    ElectExtends(p, s.claimElection);
    AttemptExtendsClaimed(job, s);
    ExtendsTransitive(p, Claimed(job, s), a.w.job);
    if a.Thrown? {
      CatchExtends(a.w, a.e, s);
      ExtendsTransitive(p, a.w.job, Handle(a, s).w.job);
    }
  }

  /** A script in which every collaborator call returns and no election
      hook changes anything. */
  function CleanScript(): Script {
    Script([], Returns, Returns, Returns, Returns, Returns, false, [], Returns)
  }

  /** An enqueued job that runs cleanly ends SUCCEEDED with the history
      ENQUEUED, PROCESSING, SUCCEEDED, after exactly these calls. */
  lemma CleanRunOfEnqueuedJob(id: nat)
    ensures var r := Perform(Job(id, [], EnqueuedState), CleanScript());
      && r.job.History() == [EnqueuedState, ProcessingState, SucceededState]
      && r.saved == [ProcessingState, SucceededState]
      && r.applied == [ProcessingState, SucceededState]
      && r.trace == [Occupied, AppliedHooks, ElectionHooks, Save,
                     StartProcessing, ProcessingHooks, Run, ProcessedHooks, StopProcessing,
                     AppliedHooks, ElectionHooks, Save, Idle]
      && r.collisions == 0 && !r.interrupted && !r.escaped
  {
    var job := Job(id, [], EnqueuedState);
    var s := CleanScript();
    var c := Claim(Initial(job), s);
    assert c.w.job == Job(id, [EnqueuedState], ProcessingState);
    assert c.w.applied == [ProcessingState] && c.w.saved == [ProcessingState];
    assert c.calls == [AppliedHooks, ElectionHooks, Save] && c.value;
    var x := RunActualJob(c.w, s);
    assert x.calls == [StartProcessing, ProcessingHooks, Run, ProcessedHooks, StopProcessing];
    var u := UpdateToSucceeded(x.w, s);
    assert u.w.job == Job(id, [EnqueuedState, ProcessingState], SucceededState);
    assert u.w.applied == [ProcessingState, SucceededState];
    assert u.calls == [AppliedHooks, ElectionHooks, Save];
    var t := c.calls + x.calls + u.calls;
    assert Attempt(Initial(job), s) == Normal(u.w, (), t);
    assert Perform(job, s) == Outcome(u.w.job, [Occupied] + (t + []) + [Idle],
                                      u.w.applied, u.w.saved, 0, false, false);
  }

  /** A failure saved through the filters whose FAILED state an election
      hook (a retry filter, say) moves to SCHEDULED: the job ends SCHEDULED,
      its history records FAILED and then SCHEDULED, storage receives the
      SCHEDULED state, and the state-applied hooks run for FAILED and again
      for SCHEDULED. */
  lemma FailureRescheduledByElection(job: Job, s: Script)
    requires CaughtFailure(job, s).Some?
    requires CaughtClass(job, s) == ServerStopped || CaughtClass(job, s) == GenericFailure
    requires s.finishSave.Returns? && s.finishElection == [ScheduledState]
    ensures var r := Perform(job, s);
      var failed := FailedState(FilteredMessage(job, s), CaughtException(job, s));
      && r.job.state == ScheduledState
      && r.job.History() == JobAtClassification(job, s).History() + [failed, ScheduledState]
      && r.saved == [Claimed(job, s).state, ScheduledState]
      && r.applied == [ProcessingState, failed, ScheduledState]
  {
    FilteredFailureLogs(job, s);
    ElectedScheduledAfterFailure(JobAtClassification(job, s),
                                 FailedState(FilteredMessage(job, s), CaughtException(job, s)), s);
  }

  lemma ElectedScheduledAfterFailure(j: Job, failed: JobState, s: Script)
    requires failed.FailedState? && s.finishSave.Returns? && s.finishElection == [ScheduledState]
    ensures var e := j.Transition(failed).Elect(s.finishElection);
      && e.state == ScheduledState
      && e.History() == j.History() + [failed, ScheduledState]
      && AppliedFor(failed, e.state, s.finishSave) == [failed, ScheduledState]
  {
  }

  /** The calls a step made agree with what it added to the logs: one
      logged state per save, and one per round of state-applied hooks. */
  predicate Logged(before: World, after: World, calls: seq<Event>) {
    && |before.saved| + Count(calls, Save) == |after.saved|
    && |before.applied| + Count(calls, AppliedHooks) == |after.applied|
  }

  lemma LoggedJoin(w1: World, w2: World, w3: World, c1: seq<Event>, c2: seq<Event>)
    requires Logged(w1, w2, c1) && Logged(w2, w3, c2)
    ensures Logged(w1, w3, c1 + c2)
  {
    CountJoin(c1, c2, Save);
    CountJoin(c1, c2, AppliedHooks);
  }

  lemma ClaimLogged(w: World, s: Script)
    ensures Logged(w, Claim(w, s).w, Claim(w, s).calls)
  {
    TwoPhaseSaveCounts(Claim(w, s).calls);
  }

  lemma RunActualJobLogged(w: World, s: Script)
    ensures Logged(w, RunActualJob(w, s).w, RunActualJob(w, s).calls)
  {
  }

  lemma UpdateToSucceededLogged(w: World, s: Script)
    ensures Logged(w, UpdateToSucceeded(w, s).w, UpdateToSucceeded(w, s).calls)
  {
    TwoPhaseSaveCounts(UpdateToSucceeded(w, s).calls);
  }

  lemma CatchLogged(w: World, e: Exception, s: Script)
    ensures Logged(w, Catch(w, e, s).w, Catch(w, e, s).calls)
  {
    var r := Catch(w, e, s);
    if TwoPhaseSaveCalls(r.calls) {
      TwoPhaseSaveCounts(r.calls);
    }
  }

  lemma AttemptLogged(w: World, s: Script)
    ensures Logged(w, Attempt(w, s).w, Attempt(w, s).calls)
  {
    var c := Claim(w, s);
    ClaimLogged(w, s);
    if c.Normal? && c.value {
      var x := RunActualJob(c.w, s);
      RunActualJobLogged(c.w, s);
      LoggedJoin(w, c.w, x.w, c.calls, x.calls);
      if x.Normal? {
        var u := UpdateToSucceeded(x.w, s);
        UpdateToSucceededLogged(x.w, s);
        LoggedJoin(w, x.w, u.w, c.calls + x.calls, u.calls);
      }
    }
  }

  /** The trace and the logs agree on every path: the run saves once per
      logged saved state and runs the state-applied hooks once per logged
      applied state, so the logs list the states of the trace's save and
      applied-hooks calls in order. */
  lemma LogsMatchTrace(job: Job, s: Script)
    ensures var r := Perform(job, s);
      Count(r.trace, Save) == |r.saved| && Count(r.trace, AppliedHooks) == |r.applied|
  {
    var a := Attempt(Initial(job), s);
    var h := Handle(a, s);
    AttemptLogged(Initial(job), s);
    if a.Thrown? {
      CatchLogged(a.w, a.e, s);
    }
    assert Logged(a.w, h.w, h.calls);
    LoggedJoin(Initial(job), a.w, h.w, a.calls, h.calls);
    assert Perform(job, s) == Outcome(h.w.job, [Occupied] + (a.calls + h.calls) + [Idle],
                                      h.w.applied, h.w.saved, h.w.collisions, h.w.interrupted, false);
    CountBetweenThreadCalls(a.calls + h.calls, Save);
    CountBetweenThreadCalls(a.calls + h.calls, AppliedHooks);
  }
}

=== FILE: traces.dfy ===
/** The observable calls a job run makes on its collaborators, in order.
    Which state a save or a state-applied call was made for is logged
    separately, in the same order (see `Performer.World`); that the logs
    and the trace agree is `PerformerProperties.LogsMatchTrace`. */
module Traces {

  datatype Event =
    | Occupied         // occupancy tracker: this worker thread is busy
    | AppliedHooks     // state-applied hooks run
    | ElectionHooks    // state-election hooks run
    | Save             // storage save attempted
    | StartProcessing  // occupancy tracker: job registered on this thread
    | ProcessingHooks  // on-processing hooks run
    | Run              // the job runner is invoked
    | ProcessedHooks   // on-processed hooks run
    | StopProcessing   // occupancy tracker: job deregistered
    | Idle             // occupancy tracker: this worker thread is idle

  /** The number of occurrences of `e` in `t`. */
  function Count(t: seq<Event>, e: Event): nat {
    multiset(t)[e]
  }

  /** No occupancy-tracker busy or idle notification. */
  predicate NoThreadCalls(t: seq<Event>) {
    Occupied !in t && Idle !in t
  }

  /** No registration, hook, runner or deregistration call of the execution window. */
  predicate NoExecutionCalls(t: seq<Event>) {
    StartProcessing !in t && ProcessingHooks !in t && Run !in t
    && ProcessedHooks !in t && StopProcessing !in t
  }

  /** No state hook and no save. */
  predicate NoStateCalls(t: seq<Event>) {
    AppliedHooks !in t && ElectionHooks !in t && Save !in t
  }

  /** The calls of one two-phase save: state-applied hooks, state election,
      the save, and possibly the state-applied hooks once more. */
  predicate TwoPhaseSaveCalls(t: seq<Event>) {
    t == [AppliedHooks, ElectionHooks, Save] || t == [AppliedHooks, ElectionHooks, Save, AppliedHooks]
  }

  /** The calls of a catch block: none, one direct save, or one two-phase save. */
  predicate FailureHandlingCalls(t: seq<Event>) {
    t == [] || t == [Save] || TwoPhaseSaveCalls(t)
  }

  lemma FailureHandlingCallsAreStateCalls(t: seq<Event>)
    requires FailureHandlingCalls(t)
    ensures NoThreadCalls(t) && NoExecutionCalls(t)
    ensures Count(t, Save) == (if t == [] then 0 else 1)
  {
  }

  lemma JoinNoThreadCalls(a: seq<Event>, b: seq<Event>, c: seq<Event>)
    requires NoThreadCalls(a) && NoThreadCalls(b) && NoThreadCalls(c)
    ensures NoThreadCalls(a + b) && NoThreadCalls(a + b + c)
  {
  }

  lemma BetweenNoExecutionCalls(a: seq<Event>, b: seq<Event>)
    requires NoExecutionCalls(a) && NoExecutionCalls(b)
    ensures NoExecutionCalls([Occupied] + (a + b) + [Idle])
  {
  }

  lemma NoStateCallsCount(t: seq<Event>, e: Event)
    requires NoStateCalls(t) && (e == AppliedHooks || e == ElectionHooks || e == Save)
    ensures Count(t, e) == 0
  {
  }

  lemma CountJoin(a: seq<Event>, b: seq<Event>, e: Event)
    ensures Count(a + b, e) == Count(a, e) + Count(b, e)
  {
    assert multiset(a + b) == multiset(a) + multiset(b);
  }

  /** Counting an event other than the thread notifications in a whole run
      is counting it in the calls between them. */
  lemma CountBetweenThreadCalls(t: seq<Event>, e: Event)
    requires e != Occupied && e != Idle
    ensures Count([Occupied] + t + [Idle], e) == Count(t, e)
  {
    CountJoin([Occupied], t, e);
    CountJoin([Occupied] + t, [Idle], e);
  }

  /** A run whose calls are some calls `c` outside the execution window,
      the window `x` itself, and more such calls `u` and `h`, registers and
      deregisters the job once each. */
  lemma WindowCounts(c: seq<Event>, x: seq<Event>, u: seq<Event>, h: seq<Event>)
    requires NoExecutionCalls(c) && NoExecutionCalls(u) && NoExecutionCalls(h)
    requires OnceAtStart(x, StartProcessing) && OnceAtEnd(x, StopProcessing)
    ensures var t := [Occupied] + (c + x + u + h) + [Idle];
      Count(t, StartProcessing) == 1 && Count(t, StopProcessing) == 1
  {
    OnceAtStartCount(x, StartProcessing);
    OnceAtEndCount(x, StopProcessing);
    CountJoin(c, x, StartProcessing);
    CountJoin(c, x, StopProcessing);
    CountJoin(c + x, u, StartProcessing);
    CountJoin(c + x, u, StopProcessing);
    CountJoin(c + x + u, h, StartProcessing);
    CountJoin(c + x + u, h, StopProcessing);
    CountBetweenThreadCalls(c + x + u + h, StartProcessing);
    CountBetweenThreadCalls(c + x + u + h, StopProcessing);
  }

  /** The state calls of one two-phase save: one election, one save, and
      one or two rounds of state-applied hooks. */
  lemma TwoPhaseSaveCounts(t: seq<Event>)
    requires TwoPhaseSaveCalls(t)
    ensures Count(t, ElectionHooks) == 1 && Count(t, Save) == 1
    ensures Count(t, AppliedHooks) == |t| - 2
  {
    if |t| == 3 {
      assert t == [AppliedHooks] + [ElectionHooks] + [Save];
      CountJoin([AppliedHooks] + [ElectionHooks], [Save], AppliedHooks);
    } else {
      assert t == [AppliedHooks] + [ElectionHooks] + [Save] + [AppliedHooks];
    }
  }

  /** `e` occurs in `t` exactly once, as its last element. */
  predicate OnceAtEnd(t: seq<Event>, e: Event) {
    |t| > 0 && t[|t| - 1] == e && e !in t[..|t| - 1]
  }

  /** `e` occurs in `t` exactly once, as its first element. */
  predicate OnceAtStart(t: seq<Event>, e: Event) {
    |t| > 0 && t[0] == e && e !in t[1..]
  }

  /** Calls made between a busy and an idle notification, none of which is
      itself such a notification, leave each notification exactly once at
      its end of the trace. */
  lemma BetweenThreadCalls(t: seq<Event>)
    requires NoThreadCalls(t)
    ensures var full := [Occupied] + t + [Idle];
      && OnceAtStart(full, Occupied) && OnceAtEnd(full, Idle)
      && Count(full, Occupied) == 1 && Count(full, Idle) == 1
  {
    var full := [Occupied] + t + [Idle];
    assert full[1..] == t + [Idle];
    assert full[..|full| - 1] == [Occupied] + t;
    OnceAtStartCount(full, Occupied);
    OnceAtEndCount(full, Idle);
  }

  lemma OnceAtEndCount(t: seq<Event>, e: Event)
    requires OnceAtEnd(t, e)
    ensures Count(t, e) == 1
  {
    assert t == t[..|t| - 1] + [t[|t| - 1]];
  }

  lemma OnceAtStartCount(t: seq<Event>, e: Event)
    requires OnceAtStart(t, e)
    ensures Count(t, e) == 1
  {
    assert t == [t[0]] + t[1..];
  }
}
